=== FILE: README.md ===
# Spotify-cli credential lifecycle, modelled in Dafny

This project models `SpotifyAuth`, the credential manager of the Spotify
command-line client. It is the client side of the OAuth 2.0 Authorization
Code grant: section 4.1 of RFC 6749, with the `state` check of section 10.12
and refresh per section 6. The model covers:

- the in-memory state: client id and secret, the triple
  (access token, expiry, refresh token), and an optional file path;
- the token file it persists;
- the redirect-port choice;
- the validation of the redirect's query parameters;
- the two token-endpoint grants;
- `get_access_token`, the state machine over the triple.

Everything is a pure function over immutable values. Every outside input is a
parameter:

- the clock;
- the generated `state`;
- the set of free ports;
- the captured redirect;
- the token endpoint's reply (`TokenReply`);
- the file system (`Disk`: files by path, plus the paths where a file cannot
  be created).

Each state-changing call returns a `Step`: the new state, the new disk, the
token requests it attempted and its result. "No network call" and "exactly one
refresh" can therefore be stated directly.

Files:

- `types.dfy` (`AuthTypes`): the data model, `u64`/`u16`, wrapping
  arithmetic and the error taxonomy.
- `store.dfy` (`CredentialStore`): `new`, `with_file`, `remove_file`,
  `from_file`, `load`, `save` and `reset_auth`.
- `handshake.dfy` (`Handshake`): `get_free_port` and the query-validation part
  of `authorize`.
- `exchange.dfy` (`TokenExchange`): `authenticate` and `refresh_token`.
- `lifecycle.dfy` (`Lifecycle`): `get_access_token`, the four-state
  classification and the scenarios.

Integer arithmetic follows a release build: `u64` overflow wraps and is
written out explicitly (`WrappingAdd`, `WrappingSub`). The one exception is
the expiry test of `get_access_token`. There the model uses the corrected,
saturating test `ShouldRefresh`. The wrapping test as written is kept as
`ExpiringAsWritten` (see Findings). A debug build panics where a release build
wraps.

Two behaviours of the code worth noting:

- A missing `state` parameter is its own error (`MissingState`), checked after
  the missing `code` and before the comparison.
- When the save that follows a successful exchange or refresh fails, the
  in-memory fields are already updated.

The model never changes the file on a failure: a write that fails after the
file was created (and so truncated) is left out.

## Model

| member | source | states |
|---|---|---|
| CredentialStore.New | spotify-cli/src/auth.rs:50-59 | a fresh state holds the given client credentials, no token fields and no file |
| CredentialStore.Save | spotify-cli/src/auth.rs:114-127 | without a path the disk is untouched and the call succeeds; with one, the file is replaced by exactly the three token fields, or the call fails with the disk unchanged when the file cannot be created |
| CredentialStore.Load | spotify-cli/src/auth.rs:96-112 | fails without a path, fails with "not found" or "corrupt" when the file is missing or undecodable; a decodable record makes it succeed; on success only the three token fields change and they equal the stored record, which may be a mixed subset |
| CredentialStore.WithFile | spotify-cli/src/auth.rs:64-69 | the path is set (even if the write then fails) and the file is overwritten with the current token fields |
| CredentialStore.RemoveFile | spotify-cli/src/auth.rs:76-78 | the path is cleared; tokens and credentials are kept |
| CredentialStore.FromFile | spotify-cli/src/auth.rs:84-94 | succeeds exactly when the file holds a decodable record; a missing file gives "not found" and an undecodable one "corrupt"; the result has the client's credentials, the path, and the stored token fields |
| CredentialStore.ResetAuth | spotify-cli/src/auth.rs:133-141 | all three token fields become absent, credentials and path are kept; with a path set, the reset succeeds exactly when the file can be created, and then the file holds the empty record, while a failed write leaves the disk unchanged |
| CredentialStore.SaveThenLoad | spotify-cli/src/auth.rs:96-127 | a successful save followed by a load through the same path restores exactly the saved token fields and nothing else of the loading state |
| CredentialStore.LoadThenSave | spotify-cli/src/auth.rs:96-127 | saving what was just loaded leaves the disk as it was |
| CredentialStore.ResetThenLoad | spotify-cli/src/auth.rs:133-141 | after a reset that reached the file, loading that file yields no tokens, for any prior state |
| CredentialStore.RemoveFileStopsSync | spotify-cli/src/auth.rs:71-78 | once the path is removed, a save writes nothing and a reset leaves the file's old record in place |
| CredentialStore.WithFileThenFromFile | spotify-cli/src/auth.rs:64-94 | `from_file` on a path that `with_file` wrote recovers that state's token fields |
| Handshake.FirstFree | spotify-cli/src/auth.rs:413-418 | the result is absent exactly when no port in the list is free; otherwise it is a free port of the list before which every port is taken |
| Handshake.GetFreePort | spotify-cli/src/auth.rs:406-419 | the chosen port is a free member of 5555..5559 with every earlier candidate taken; "all ports unavailable" exactly when none is free |
| Handshake.FirstFreeIsLeast | spotify-cli/src/auth.rs:412-417 | if the k-th candidate is free, the choice lies among the first k+1 candidates |
| Handshake.ValidateRedirect | spotify-cli/src/auth.rs:244-265 | success exactly when `code` and `state` are present and `state` equals the generated one, returning the code and the same port; a missing code is reported first, then a missing state, then a mismatch as `InvalidState` |
| Handshake.Authorize | spotify-cli/src/auth.rs:190-265 | it fails on ports exactly when no candidate is free; otherwise an uncaptured redirect fails, and a captured one gives exactly the redirect validation on the port `get_free_port` chose; success yields that free candidate port and the code of a redirect whose `state` equals the generated one |
| Handshake.ForgedStateRejected | spotify-cli/src/auth.rs:259-262 | a redirect with any `state` other than the generated one is rejected |
| TokenExchange.Authenticate | spotify-cli/src/auth.rs:268-317 | the request carries the client's credentials, the code and the redirect port; success exactly on a decodable 200 carrying a refresh token, with expiry = request time + expires_in; a 200 without a refresh token fails |
| TokenExchange.RefreshToken | spotify-cli/src/auth.rs:327-380 | no stored refresh token: failure, no request, no change; otherwise exactly one refresh request; a rejected reply changes nothing and returns the reply's error (the body for a non-200); an accepted one replaces the access token, sets expiry = request time + expires_in, keeps the old refresh token unless a new one came, and saves, a failed save returning the write error |
| TokenExchange.RefreshKeepsOmittedToken | spotify-cli/src/auth.rs:364-366 | a reply without a refresh token keeps the stored one on refresh, but makes the code exchange fail |
| TokenExchange.RefreshPreservesConsistency | spotify-cli/src/auth.rs:339-379 | a refresh keeps an all-or-nothing triple all-or-nothing, whatever the reply |
| TokenExchange.RefreshExpiry | spotify-cli/src/auth.rs:352-367 | without wrap-around, a refreshed token's expiry is the pre-request time plus the granted lifetime |
| AuthTypes.WrappingAdd | spotify-cli/src/auth.rs:367 | the `u64` sum of request time and `expires_in` (also at auth.rs:312): the exact sum below 2^64, and the sum minus 2^64 on overflow |
| AuthTypes.WrappingSub | spotify-cli/src/auth.rs:154 | the `u64` difference `valid_until - 120`: exact without underflow, and 2^64 more than the mathematical difference on underflow |
| TokenExchange.Accepted | spotify-cli/src/auth.rs:356-373 | the status and decode dispatch shared with auth.rs:302-315: accepted exactly on a decodable 200; a non-200 surfaces the body, a failed send and an undecodable body are errors of their own |
| Lifecycle.ExpiringAsWritten | spotify-cli/src/auth.rs:154 | the test as written: for expiries of at least 120 it holds exactly when the token expires within 120 seconds; below 120 it holds only in the last seconds of the `u64` range |
| Lifecycle.ShouldRefresh | spotify-cli/src/auth.rs:148-154 | the corrected test holds exactly when the expiry is at most now + 120 |
| Lifecycle.PhaseOf | spotify-cli/src/auth.rs:151-186 | the four states: no tokens exactly when all fields are absent, broken exactly when the triple is mixed, usable or needing refresh for a complete triple according to whether it expires within 120 seconds |
| Lifecycle.ExpiryTestsAgree | spotify-cli/src/auth.rs:154 | for expiries of at least 120 the corrected refresh test and the test as written agree |
| Lifecycle.ExpiredTokenAlwaysRefreshed | spotify-cli/src/auth.rs:148-154 | under the corrected test a token whose expiry has passed is always refreshed |
| Lifecycle.ExpiredTokenServedAsWritten | spotify-cli/src/auth.rs:154 | with expiry 0 checked at time 1000 the test as written asks for no refresh, while the corrected test does |
| Lifecycle.GetAccessToken | spotify-cli/src/auth.rs:150-188 | a returned token is the stored access token of a complete triple; a failure never changes the disk; at most one token request is sent; credentials and path never change |
| Lifecycle.BrokenFailsFast | spotify-cli/src/auth.rs:182-186 | a mixed triple fails with the broken-state error, sends nothing and changes nothing |
| Lifecycle.UsableReturnsCached | spotify-cli/src/auth.rs:165-167 | a token valid for more than 120 more seconds is returned unchanged, with no request and no change |
| Lifecycle.NeedsRefreshRefreshesOnce | spotify-cli/src/auth.rs:152-164 | a token expiring within 120 seconds triggers exactly one refresh request; success returns the new token with expiry from the request time; a non-200 surfaces the body and changes nothing; any failed refresh (no reply, an undecodable 200, a failed save) returns exactly the refresh's error; state, disk and success are exactly those of the refresh, so a decodable 200 updates the fields even when the save then fails |
| Lifecycle.UnauthenticatedRunsFullFlow | spotify-cli/src/auth.rs:169-181 | with no tokens a failed handshake sends nothing and changes nothing; a failed code exchange after a good handshake sends that one code request, returns the exchange's error and changes nothing; the state changes only when handshake and exchange both succeed; when they do, one code request with the redirect's code and port is sent, the issued triple is stored with expiry = request time + expires_in, and with a writable (or no) file it is saved and the access token returned, while a file that cannot be created makes the call fail with the write error |
| Lifecycle.NoTokenMissingAfterRefresh | spotify-cli/src/auth.rs:155-164 | the "access token missing after a refresh" error can never be returned |
| Lifecycle.GetAccessTokenPreservesConsistency | spotify-cli/src/auth.rs:150-188 | an all-or-nothing triple stays all-or-nothing across any call |
| Lifecycle.ForgedRedirectNeverExchanged | spotify-cli/src/auth.rs:169-173 | with no tokens, a redirect whose `state` differs from the generated one fails before any token request and changes nothing |
| Lifecycle.RepeatedCallReusesToken | spotify-cli/src/auth.rs:150-167 | right after a successful call, a call while the new token is still usable returns the same token with no request and no write |
| Lifecycle.FirstRunScenario | spotify-cli/src/auth.rs:50-188 | first run: `from_file` finds no file; a new state bound to the file authorizes once on the first free port, stores the tokens with expiry t0 + 3600, and a second call at t0 returns the same token with no request |
| Lifecycle.ExpiredRefreshRejectedScenario | spotify-cli/src/auth.rs:152-155 | a token that expired a second ago is refreshed once, and a 400 reply is surfaced as the error with nothing changed |

## Left out

- HTTP transport (`reqwest`) and the async runtime: a token request's outcome is the `TokenReply` parameter. `NoReply` stands for a failed send.
- The one-shot `tiny_http` listener and its stdin fallback (auth.rs:214-231): both become the `Redirect` parameter. `NotCaptured` stands for a failed receive, a failed `respond` to the browser, a failed read and an unparsable URL.
- URL construction and parsing: the authorize URL with its scope list and the redirect URI string are not built. The code grant carries the redirect port itself, and the query parameters arrive as a map.
- Base64 encoding of the Basic header: the request records the client id and secret it authenticates with.
- JSON (de)serialisation: a reply carries its body already decoded (or `None`). A file holds a record or is `Unparsable`.
- The system clock: its two readings (at the expiry test and just before the token request) are parameters. Its failure for times before the epoch is not modelled.
- Random `state` generation: the generated string is a parameter. Its length of 16 alphanumeric characters is not modelled.
- `portpicker::is_free`: a set of free ports, assumed stable while the candidates are probed.
- A write that fails after the file was created (a partially written file): only a failure to create the file is modelled.
- A failure to read the body of a non-200 reply.
- `print_auth_info` and the debug-only printing.
- spotify-cli/src/handlers.rs and spotify-cli/src/main.rs: request handlers and argument parsing around `get_access_token`.
- Lifecycle.GetAccessToken: uses the corrected refresh test `ShouldRefresh` instead of the wrapping test at auth.rs:154. The test as written is kept as `ExpiringAsWritten`; the two differ only for expiries below 120.
- TokenExchange.Authenticate: `curr_time + expires_in` wraps as in a release build. A debug build panics instead; that panic is not modelled.
- TokenExchange.RefreshToken: the same wrapping sum as in `Authenticate`; the debug-build panic is not modelled.

## Findings

| source | as written | input that shows it | evidently intended | confidence | as-written member | corrected member |
|---|---|---|---|---|---|---|
| spotify-cli/src/auth.rs:154 | `curr_time >= valid_until - 120` with `u64` subtraction, which wraps in a release build (and panics in a debug build) when `valid_until < 120` | a stored record with `valid_until = 0` (a zeroed or hand-edited file), checked at `curr_time = 1000`: the test is false, so the long-expired token is returned as cached | refresh whenever the token expires within 120 seconds, i.e. `curr_time >= valid_until.saturating_sub(120)` | medium, not executed | Lifecycle.ExpiringAsWritten, exhibited by Lifecycle.ExpiredTokenServedAsWritten | Lifecycle.ShouldRefresh, whose contract states the intended test, used by Lifecycle.GetAccessToken |

=== FILE: exchange.dfy ===
/** The two token-endpoint grants: the authorization code exchange of
    section 4.1.3 of RFC 6749 (`authenticate`) and the refresh of section 6
    (`refresh_token`), each given the clock reading taken just before the
    request and the endpoint's reply. */
module TokenExchange {
  import opened AuthTypes
  import CredentialStore

  /** The tokens issued by a successful code exchange. */
  datatype Issued = Issued(accessToken: string, refreshToken: string, validUntil: U64)

  /** One token request and what became of it. */
  datatype Exchanged<+T> = Exchanged(request: TokenRequest, result: Result<T>)

  /** The body of a successful reply, or why there is none. */
  function Accepted(reply: TokenReply): (r: Result<AuthenticationResponse>)
    ensures r.Ok? <==> reply.Reply? && reply.status == HTTP_OK && reply.decoded.Some?
    ensures r.Ok? ==> r.value == reply.decoded.value
    ensures reply.NoReply? ==> r == Err(TransportFailed)
    ensures reply.Reply? && reply.status != HTTP_OK ==> r == Err(ServiceError(reply.body))
    ensures reply.Reply? && reply.status == HTTP_OK && reply.decoded.None? ==>
      r == Err(MalformedResponse)
  {
    match reply
    case NoReply => Err(TransportFailed)
    case Reply(status, body, decoded) =>
      if status != HTTP_OK then Err(ServiceError(body))
      else match decoded
        case None => Err(MalformedResponse)
        case Some(resp) => Ok(resp)
  }

  /** `authenticate`: exchanges the authorization code, sending the port the
      code was redirected to. A 200 reply without a refresh token is a
      failure (`authenticate` unwraps it). `now` is read before the request. */
  function Authenticate(a: SpotifyAuth, code: string, port: Port, now: U64, reply: TokenReply)
    : (x: Exchanged<Issued>)
    ensures x.request == TokenRequest(a.clientId, a.clientSecret, AuthorizationCodeGrant(code, port))
    ensures x.result.Ok? <==>
      Accepted(reply).Ok? && Accepted(reply).value.refreshToken.Some?
    ensures Accepted(reply).Err? ==> x.result == Err(Accepted(reply).error)
    ensures Accepted(reply).Ok? && Accepted(reply).value.refreshToken.None? ==>
      x.result == Err(MissingRefreshToken)
    ensures x.result.Ok? ==>
      var resp := reply.decoded.value;
      && x.result.value.accessToken == resp.accessToken
      && Some(x.result.value.refreshToken) == resp.refreshToken
      && x.result.value.validUntil == WrappingAdd(now, resp.expiresIn)
  {
    var request := TokenRequest(a.clientId, a.clientSecret, AuthorizationCodeGrant(code, port));
    match Accepted(reply)
    case Err(e) => Exchanged(request, Err(e))
    case Ok(resp) =>
      match resp.refreshToken
      case None => Exchanged(request, Err(MissingRefreshToken))
      case Some(refresh) =>
        Exchanged(request, Ok(Issued(resp.accessToken, refresh, WrappingAdd(now, resp.expiresIn))))
  }

  /** `refresh_token`: trades the stored refresh token for a new access token,
      keeps the stored refresh token unless the reply carries a new one, and
      saves. `now` is read before the request. */
  function RefreshToken(a: SpotifyAuth, disk: Disk, now: U64, reply: TokenReply): (s: Step<()>)
    ensures a.refreshToken.None? ==> s == Step(a, disk, [], Err(NoRefreshToken))
    ensures a.refreshToken.Some? ==>
      s.sent == [TokenRequest(a.clientId, a.clientSecret, RefreshTokenGrant(a.refreshToken.value))]
    ensures Accepted(reply).Err? ==> s.auth == a && s.disk == disk && s.result.Err?
    ensures s.result.Err? ==> s.disk == disk
    ensures a.refreshToken.Some? && Accepted(reply).Err? ==> s.result == Err(Accepted(reply).error)
    ensures a.refreshToken.Some? && Accepted(reply).Ok? && s.result.Err? ==>
      a.filepath.Some? && s.result == Err(WriteFailed(a.filepath.value))
    ensures s.result.Ok? <==>
      a.refreshToken.Some? && Accepted(reply).Ok?
      && (a.filepath.Some? ==> a.filepath.value !in disk.unwritable)
    ensures a.refreshToken.Some? && Accepted(reply).Ok? ==>
      var resp := reply.decoded.value;
      && s.auth.accessToken == Some(resp.accessToken)
      && s.auth.validUntil == Some(WrappingAdd(now, resp.expiresIn))
      && s.auth.refreshToken == (if resp.refreshToken.Some? then resp.refreshToken else a.refreshToken)
      && s.auth.clientId == a.clientId && s.auth.clientSecret == a.clientSecret
      && s.auth.filepath == a.filepath
    ensures s.result.Ok? ==> s.auth.Tokens().AllPresent()
    ensures s.result.Ok? ==> s.disk == CredentialStore.Save(s.auth, disk).disk
  {
    match a.refreshToken
    case None => Step(a, disk, [], Err(NoRefreshToken))
    case Some(stored) =>
      var request := TokenRequest(a.clientId, a.clientSecret, RefreshTokenGrant(stored));
      match Accepted(reply)
      case Err(e) => Step(a, disk, [request], Err(e))
      case Ok(resp) =>
        var a' := a.(accessToken := Some(resp.accessToken),
                     refreshToken := if resp.refreshToken.Some? then resp.refreshToken else a.refreshToken,
                     validUntil := Some(WrappingAdd(now, resp.expiresIn)));
        var w := CredentialStore.Save(a', disk);
        Step(a', w.disk, [request], w.result)
  }

  /** A refresh whose reply omits the refresh token keeps the stored one
      (section 6 of RFC 6749 lets the server keep it unchanged); the code
      exchange instead fails on such a reply. */
  lemma RefreshKeepsOmittedToken(a: SpotifyAuth, disk: Disk, now: U64, reply: TokenReply,
                                 code: string, port: Port)
    requires a.refreshToken.Some? && Accepted(reply).Ok?
    requires reply.decoded.value.refreshToken.None?
    ensures RefreshToken(a, disk, now, reply).auth.refreshToken == a.refreshToken
    ensures Authenticate(a, code, port, now, reply).result == Err(MissingRefreshToken)
  {
  }

  /** A refresh never breaks the all-or-nothing invariant: a consistent
      state stays consistent whatever the reply and the disk. */
  lemma RefreshPreservesConsistency(a: SpotifyAuth, disk: Disk, now: U64, reply: TokenReply)
    requires a.Tokens().Consistent()
    ensures RefreshToken(a, disk, now, reply).auth.Tokens().Consistent()
  {
  }

  /** Barring wrap-around, a refreshed token is valid for exactly the
      granted lifetime counted from the moment before the request. */
  lemma RefreshExpiry(a: SpotifyAuth, disk: Disk, now: U64, reply: TokenReply)
    requires RefreshToken(a, disk, now, reply).result.Ok?
    requires now + reply.decoded.value.expiresIn < U64_MODULUS
    ensures RefreshToken(a, disk, now, reply).auth.validUntil
            == Some(now + reply.decoded.value.expiresIn)
  {
  }
}

=== FILE: handshake.dfy ===
/** The authorization half of the Authorization Code grant (section 4.1 of
    RFC 6749): choosing a pre-registered redirect port and validating the
    redirect's query parameters, including the `state` check of section 10.12. */
module Handshake {
  import opened AuthTypes

  /** The redirect ports registered with the service, in probing order. */
  const CandidatePorts: seq<Port> := [5555, 5556, 5557, 5558, 5559]

  /** The first port of `ports` that is in `free`. */
  function FirstFree(ports: seq<Port>, free: set<Port>): (r: Option<Port>)
    ensures r.None? <==> forall i :: 0 <= i < |ports| ==> ports[i] !in free
    ensures r.Some? ==>
      exists i :: 0 <= i < |ports| && ports[i] == r.value && r.value in free
                  && forall j :: 0 <= j < i ==> ports[j] !in free
    decreases |ports|
  {
    if |ports| == 0 then None
    else if ports[0] in free then Some(ports[0])
    else
      var r := FirstFree(ports[1..], free);
      assert forall i :: 1 <= i < |ports| ==> ports[i] == ports[1..][i - 1];
      r
  }

  /** The redirect port: the first free candidate, probed in order. */
  function GetFreePort(free: set<Port>): (r: Result<Port>)
    ensures r.Err? <==> forall i :: 0 <= i < |CandidatePorts| ==> CandidatePorts[i] !in free
    ensures r.Err? ==> r.error == PortsUnavailable
    ensures r.Ok? ==>
      exists i :: 0 <= i < |CandidatePorts| && CandidatePorts[i] == r.value && r.value in free
                  && forall j :: 0 <= j < i ==> CandidatePorts[j] !in free
  {
    match FirstFree(CandidatePorts, free)
    case None => Err(PortsUnavailable)
    case Some(port) => Ok(port)
  }

  /** Checks the redirect's query parameters against the generated `state`,
      in the order: `code` present, `state` present, `state` equal. */
  function ValidateRedirect(csrfState: string, port: Port, query: map<string, string>)
    : (r: Result<(string, Port)>)
    ensures r.Ok? <==> "code" in query && "state" in query && query["state"] == csrfState
    ensures r.Ok? ==> r.value == (query["code"], port)
    ensures "code" !in query ==> r == Err(MissingCode)
    ensures "code" in query && "state" !in query ==> r == Err(MissingState)
    ensures "code" in query && "state" in query && query["state"] != csrfState ==>
      r == Err(InvalidState)
  {
    if "code" !in query then Err(MissingCode)
    else if "state" !in query then Err(MissingState)
    else if query["state"] != csrfState then Err(InvalidState)
    else Ok((query["code"], port))
  }

  /** What the one-shot redirect listener (or the manual paste that replaces
      it) yields: the redirected URL's query parameters, or nothing usable. */
  datatype Redirect = Captured(query: map<string, string>) | NotCaptured

  /** `authorize`: the authorization code and the port it was redirected to,
      given the generated `state`, the free ports and the captured redirect. */
  function Authorize(csrfState: string, free: set<Port>, redirect: Redirect)
    : (r: Result<(string, Port)>)
    ensures r.Ok? ==> r.value.1 in CandidatePorts && r.value.1 in free
    ensures r.Ok? ==> redirect.Captured? && "state" in redirect.query
                      && redirect.query["state"] == csrfState
                      && "code" in redirect.query && r.value.0 == redirect.query["code"]
    ensures r == Err(PortsUnavailable) <==>
      forall i :: 0 <= i < |CandidatePorts| ==> CandidatePorts[i] !in free
    ensures GetFreePort(free).Ok? && redirect.NotCaptured? ==> r == Err(RedirectNotCaptured)
    ensures GetFreePort(free).Ok? && redirect.Captured? ==>
      r == ValidateRedirect(csrfState, GetFreePort(free).value, redirect.query)
  {
    match GetFreePort(free)
    case Err(e) => Err(e)
    case Ok(port) =>
      match redirect
      case NotCaptured => Err(RedirectNotCaptured)
      case Captured(query) => ValidateRedirect(csrfState, port, query)
  }

  /** Probing order: the lowest candidate wins whenever it is free, and a
      later candidate is chosen only when every earlier one is taken. */
  lemma FirstFreeIsLeast(ports: seq<Port>, free: set<Port>, k: nat)
    requires k < |ports| && ports[k] in free
    ensures FirstFree(ports, free).Some?
    ensures FirstFree(ports, free).value in ports[..k + 1]
  {
  }

  /** A redirect whose `state` differs from the generated one is rejected,
      whatever port is free and whatever code it carries. */
  lemma ForgedStateRejected(csrfState: string, free: set<Port>, query: map<string, string>)
    requires "state" in query && query["state"] != csrfState
    ensures Authorize(csrfState, free, Captured(query)).Err?
  {
  }
}

=== FILE: lifecycle.dfy ===
/** `get_access_token`: the state machine hidden in the triple
    (access token, expiry, refresh token). */
module Lifecycle {
  import opened AuthTypes
  import CredentialStore
  import Handshake
  import TokenExchange

  /** Seconds before expiry at which a token already counts as expiring. */
  const EXPIRY_MARGIN: U64 := 120

  /** The refresh test as `get_access_token` writes it, `now >= valid_until - 120`,
      with `u64` subtraction that wraps in a release build. */
  function ExpiringAsWritten(now: U64, validUntil: U64): (r: bool)
    ensures validUntil >= EXPIRY_MARGIN ==> (r <==> validUntil <= now + EXPIRY_MARGIN)
    ensures validUntil < EXPIRY_MARGIN ==>
      (r <==> now >= U64_MODULUS - EXPIRY_MARGIN + validUntil)
  {
    now >= WrappingSub(validUntil, EXPIRY_MARGIN)
  }

  /** The refresh test as intended: the token expires within the margin.
      Equivalently `now >= valid_until.saturating_sub(120)`. */
  function ShouldRefresh(now: U64, validUntil: U64): (r: bool)
    ensures r <==> validUntil <= now + EXPIRY_MARGIN
  {
    now >= if validUntil < EXPIRY_MARGIN then 0 else validUntil - EXPIRY_MARGIN
  }

  /** The two tests agree whenever the subtraction cannot underflow. */
  lemma ExpiryTestsAgree(now: U64, validUntil: U64)
    requires validUntil >= EXPIRY_MARGIN
    ensures ExpiringAsWritten(now, validUntil) == ShouldRefresh(now, validUntil)
  {
  }

  /** Under the corrected test an expired token is always refreshed. */
  lemma ExpiredTokenAlwaysRefreshed(now: U64, validUntil: U64)
    ensures now >= validUntil ==> ShouldRefresh(now, validUntil)
  {
  }

  /** The underflow: a record with expiry 0, checked at time 1000, is long
      expired, yet the test as written does not ask for a refresh, so the
      stale token would be served. */
  lemma ExpiredTokenServedAsWritten()
    ensures !ExpiringAsWritten(1000, 0)
    ensures ShouldRefresh(1000, 0)
  {
  }

  /** The four states of the credential triple, classified independently of
      `get_access_token`. */
  datatype Phase = Unauthenticated | Usable | NeedsRefresh | Broken

  function PhaseOf(a: SpotifyAuth, now: U64): (p: Phase)
    ensures p == Unauthenticated <==> a.Tokens() == EmptyTokens
    ensures p == Broken <==> !a.Tokens().Consistent()
    ensures p == Usable <==> a.Tokens().AllPresent() && a.validUntil.value > now + EXPIRY_MARGIN
    ensures p == NeedsRefresh <==> a.Tokens().AllPresent() && a.validUntil.value <= now + EXPIRY_MARGIN
  {
    var t := a.Tokens();
    if t.AllAbsent() then Unauthenticated
    else if !t.AllPresent() then Broken
    else if now + EXPIRY_MARGIN < t.validUntil.value then Usable
    else NeedsRefresh
  }

  /** Everything outside the program that one `get_access_token` call
      consults: the clock at the expiry test and just before the token
      request, the generated `state`, the free ports, the captured redirect
      and the token endpoint's reply. */
  datatype Env = Env(
    checkTime: U64,
    requestTime: U64,
    csrfState: string,
    freePorts: set<Port>,
    redirect: Handshake.Redirect,
    reply: TokenReply)

  /** `get_access_token`: the cached token while it is fresh, a refreshed one
      when it is about to expire, a full authorization otherwise; a mixed
      triple is reported, never repaired. Whatever it returns is the token
      it leaves stored, and a failure never touches the disk. */
  function GetAccessToken(a: SpotifyAuth, disk: Disk, env: Env): (s: Step<string>)
    ensures s.result.Ok? ==> s.auth.Tokens().AllPresent()
                             && s.auth.accessToken == Some(s.result.value)
    ensures s.result.Err? ==> s.disk == disk
    ensures |s.sent| <= 1
    ensures s.auth.clientId == a.clientId && s.auth.clientSecret == a.clientSecret
    ensures s.auth.filepath == a.filepath
  {
    if a.Tokens().AllPresent() then
      if ShouldRefresh(env.checkTime, a.validUntil.value) then
        var r := TokenExchange.RefreshToken(a, disk, env.requestTime, env.reply);
        if r.result.Err? then Step(r.auth, r.disk, r.sent, Err(r.result.error))
        else match r.auth.accessToken
          case Some(renewed) => Step(r.auth, r.disk, r.sent, Ok(renewed))
          case None => Step(r.auth, r.disk, r.sent, Err(TokenMissingAfterRefresh))
      else Step(a, disk, [], Ok(a.accessToken.value))
    else if a.Tokens().AllAbsent() then
      match Handshake.Authorize(env.csrfState, env.freePorts, env.redirect)
      case Err(e) => Step(a, disk, [], Err(e))
      case Ok((code, port)) =>
        var x := TokenExchange.Authenticate(a, code, port, env.requestTime, env.reply);
        match x.result
        case Err(e) => Step(a, disk, [x.request], Err(e))
        case Ok(issued) =>
          var a' := a.WithTokens(TokenFile(Some(issued.accessToken), Some(issued.validUntil),
                                           Some(issued.refreshToken)));
          var w := CredentialStore.Save(a', disk);
          Step(a', w.disk, [x.request], if w.result.Err? then Err(w.result.error)
                                        else Ok(issued.accessToken))
    else Step(a, disk, [], Err(MixedTokenFields))
  }

  /** Broken: a mixed triple fails at once, with no request and no change. */
  lemma BrokenFailsFast(a: SpotifyAuth, disk: Disk, env: Env)
    requires PhaseOf(a, env.checkTime) == Broken
    ensures GetAccessToken(a, disk, env) == Step(a, disk, [], Err(MixedTokenFields))
  {
  }

  /** Usable: the cached token comes back unchanged, with no request and
      nothing written. */
  lemma UsableReturnsCached(a: SpotifyAuth, disk: Disk, env: Env)
    requires PhaseOf(a, env.checkTime) == Usable
    ensures GetAccessToken(a, disk, env) == Step(a, disk, [], Ok(a.accessToken.value))
  {
  }

  /** NeedsRefresh: exactly one refresh request with the stored refresh
      token; on success the new token is returned and stored with expiry
      counted from the request time; a failed refresh surfaces its own
      error, and a rejected one changes nothing. */
  lemma NeedsRefreshRefreshesOnce(a: SpotifyAuth, disk: Disk, env: Env)
    requires PhaseOf(a, env.checkTime) == NeedsRefresh
    ensures GetAccessToken(a, disk, env).sent
            == [TokenRequest(a.clientId, a.clientSecret, RefreshTokenGrant(a.refreshToken.value))]
    ensures GetAccessToken(a, disk, env).result.Ok? ==>
      && env.reply.Reply? && env.reply.status == HTTP_OK && env.reply.decoded.Some?
      && GetAccessToken(a, disk, env).result.value == env.reply.decoded.value.accessToken
      && GetAccessToken(a, disk, env).auth.validUntil
         == Some(WrappingAdd(env.requestTime, env.reply.decoded.value.expiresIn))
    ensures env.reply.Reply? && env.reply.status != HTTP_OK ==>
      GetAccessToken(a, disk, env).result == Err(ServiceError(env.reply.body))
      && GetAccessToken(a, disk, env).auth == a
      && GetAccessToken(a, disk, env).disk == disk
    ensures GetAccessToken(a, disk, env).auth
            == TokenExchange.RefreshToken(a, disk, env.requestTime, env.reply).auth
    ensures GetAccessToken(a, disk, env).disk
            == TokenExchange.RefreshToken(a, disk, env.requestTime, env.reply).disk
    ensures GetAccessToken(a, disk, env).result.Ok?
            <==> TokenExchange.RefreshToken(a, disk, env.requestTime, env.reply).result.Ok?
    ensures TokenExchange.RefreshToken(a, disk, env.requestTime, env.reply).result.Err? ==>
      GetAccessToken(a, disk, env).result
      == Err(TokenExchange.RefreshToken(a, disk, env.requestTime, env.reply).result.error)
  {
  }

  /** Unauthenticated: the handshake runs first; state changes only when
      both the redirect and the code exchange succeed, and then all three
      fields are set (expiry counted from the request time) and saved. */
  lemma UnauthenticatedRunsFullFlow(a: SpotifyAuth, disk: Disk, env: Env)
    requires PhaseOf(a, env.checkTime) == Unauthenticated
    ensures Handshake.Authorize(env.csrfState, env.freePorts, env.redirect).Err? ==>
      GetAccessToken(a, disk, env)
      == Step(a, disk, [], Err(Handshake.Authorize(env.csrfState, env.freePorts, env.redirect).error))
    ensures GetAccessToken(a, disk, env).auth != a ==>
      var resp := env.reply.decoded.value;
      && Handshake.Authorize(env.csrfState, env.freePorts, env.redirect).Ok?
      && TokenExchange.Accepted(env.reply).Ok? && resp.refreshToken.Some?
      && GetAccessToken(a, disk, env).auth.Tokens()
         == TokenFile(Some(resp.accessToken), Some(WrappingAdd(env.requestTime, resp.expiresIn)),
                      resp.refreshToken)
    ensures GetAccessToken(a, disk, env).result.Ok? ==>
      GetAccessToken(a, disk, env).disk
      == CredentialStore.Save(GetAccessToken(a, disk, env).auth, disk).disk
    ensures Handshake.Authorize(env.csrfState, env.freePorts, env.redirect).Ok? ==>
      var grant := Handshake.Authorize(env.csrfState, env.freePorts, env.redirect).value;
      var x := TokenExchange.Authenticate(a, grant.0, grant.1, env.requestTime, env.reply);
      x.result.Err? ==> GetAccessToken(a, disk, env) == Step(a, disk, [x.request], Err(x.result.error))
    ensures Handshake.Authorize(env.csrfState, env.freePorts, env.redirect).Ok?
            && TokenExchange.Accepted(env.reply).Ok? && env.reply.decoded.value.refreshToken.Some? ==>
      var resp := env.reply.decoded.value;
      var grant := Handshake.Authorize(env.csrfState, env.freePorts, env.redirect).value;
      && GetAccessToken(a, disk, env).auth
         == a.WithTokens(TokenFile(Some(resp.accessToken),
                                   Some(WrappingAdd(env.requestTime, resp.expiresIn)),
                                   resp.refreshToken))
      && GetAccessToken(a, disk, env).sent
         == [TokenRequest(a.clientId, a.clientSecret, AuthorizationCodeGrant(grant.0, grant.1))]
      && ((a.filepath.Some? ==> a.filepath.value !in disk.unwritable) ==>
          GetAccessToken(a, disk, env).result == Ok(resp.accessToken))
      && (a.filepath.Some? && a.filepath.value in disk.unwritable ==>
          GetAccessToken(a, disk, env).result == Err(WriteFailed(a.filepath.value)))
  {
  }

  /** The "missing after refresh" branch is dead: after a successful
      refresh the access token is always present. */
  lemma NoTokenMissingAfterRefresh(a: SpotifyAuth, disk: Disk, env: Env)
    ensures GetAccessToken(a, disk, env).result != Err(TokenMissingAfterRefresh)
  {
  }

  /** The all-or-nothing invariant survives every call, whatever the clock,
      the redirect, the reply and the disk. */
  lemma GetAccessTokenPreservesConsistency(a: SpotifyAuth, disk: Disk, env: Env)
    requires a.Tokens().Consistent()
    ensures GetAccessToken(a, disk, env).auth.Tokens().Consistent()
  {
  }

  /** A forged redirect (its `state` differs from the generated one) never
      reaches the token endpoint. */
  lemma ForgedRedirectNeverExchanged(a: SpotifyAuth, disk: Disk, env: Env)
    requires a.Tokens().AllAbsent()
    requires env.redirect.Captured? && "state" in env.redirect.query
    requires env.redirect.query["state"] != env.csrfState
    ensures GetAccessToken(a, disk, env).sent == []
    ensures GetAccessToken(a, disk, env).result.Err?
    ensures GetAccessToken(a, disk, env).auth == a
  {
  }

  /** First run: no file yet, so `from_file` fails; a new state bound to the
      file authorizes once, stores the issued tokens with expiry `t0 + 3600`,
      and a second call at `t0` returns the same token without a request. */
  lemma FirstRunScenario(path: string, t0: U64)
    requires t0 + 3600 < U64_MODULUS
    ensures
      var disk0 := Disk(map[], {});
      var env := Env(t0, t0, "S", {5556, 5558}, Handshake.Captured(map["code" := "C", "state" := "S"]),
                     Reply(HTTP_OK, "", Some(AuthenticationResponse("AT1", "Bearer", "", 3600, Some("RT1")))));
      var bound := CredentialStore.WithFile(CredentialStore.New("id", "secret"), disk0, path);
      var first := GetAccessToken(bound.auth, bound.disk, env);
      var second := GetAccessToken(first.auth, first.disk, env.(reply := NoReply));
      && CredentialStore.FromFile("id", "secret", path, disk0) == Err(FileNotFound(path))
      && first.result == Ok("AT1")
      && first.sent == [TokenRequest("id", "secret", AuthorizationCodeGrant("C", 5556))]
      && first.auth.validUntil == Some(t0 + 3600)
      && first.disk.files[path] == Record(TokenFile(Some("AT1"), Some(t0 + 3600), Some("RT1")))
      && second == Step(first.auth, first.disk, [], Ok("AT1"))
  {
    var disk0 := Disk(map[], {});
    var bound := CredentialStore.WithFile(CredentialStore.New("id", "secret"), disk0, path);
    assert Handshake.GetFreePort({5556, 5558}) == Ok(5556) by {
      assert Handshake.CandidatePorts[0] !in {5556, 5558};
      assert Handshake.CandidatePorts[1] == 5556;
    }
  }

  /** A stored token that expired a second ago is refreshed exactly once,
      and a 400 from the token endpoint is surfaced, not the stale token. */
  lemma ExpiredRefreshRejectedScenario(a: SpotifyAuth, disk: Disk, env: Env)
    requires a.Tokens().AllPresent() && env.checkTime >= 1
    requires a.validUntil == Some(env.checkTime - 1)
    requires env.reply == Reply(400, "invalid_grant", None)
    ensures GetAccessToken(a, disk, env)
            == Step(a, disk, [TokenRequest(a.clientId, a.clientSecret, RefreshTokenGrant(a.refreshToken.value))],
                    Err(ServiceError("invalid_grant")))
  {
  }

  /** Right after a successful call, a call made while the new token is
      still usable returns the same token without any request or write. */
  lemma RepeatedCallReusesToken(a: SpotifyAuth, disk: Disk, env: Env, later: Env)
    requires GetAccessToken(a, disk, env).result.Ok?
    requires later.checkTime + EXPIRY_MARGIN < GetAccessToken(a, disk, env).auth.validUntil.value
    ensures
      var s := GetAccessToken(a, disk, env);
      GetAccessToken(s.auth, s.disk, later) == Step(s.auth, s.disk, [], s.result)
  {
  }
}

=== FILE: store.dfy ===
/** Construction of the credential state and its persistence: `new`,
    `with_file`, `remove_file`, `from_file`, `load`, `save` and `reset_auth`. */
module CredentialStore {
  import opened AuthTypes

  /** A fresh state for the given client: no tokens, no file. */
  function New(clientId: string, clientSecret: string): (a: SpotifyAuth)
    ensures a.clientId == clientId && a.clientSecret == clientSecret
    ensures a.Tokens() == EmptyTokens
    ensures a.filepath.None?
  {
    SpotifyAuth(clientId, clientSecret, None, None, None, None)
  }

  /** Writes the three token fields to the state's file, replacing whatever
      the file held. Without a file path nothing is written and nothing fails. */
  function Save(a: SpotifyAuth, disk: Disk): (w: Written)
    ensures a.filepath.None? ==> w == Written(disk, Ok(()))
    ensures w.disk.unwritable == disk.unwritable
    ensures w.result.Err? ==> w.disk == disk && a.filepath.Some?
                              && w.result.error == WriteFailed(a.filepath.value)
    ensures a.filepath.Some? ==>
      (w.result.Ok? <==> a.filepath.value !in disk.unwritable)
    ensures w.result.Ok? && a.filepath.Some? ==>
      w.disk.files == disk.files[a.filepath.value := Record(a.Tokens())]
  {
    match a.filepath
    case None => Written(disk, Ok(()))
    case Some(path) =>
      if path in disk.unwritable then Written(disk, Err(WriteFailed(path)))
      else Written(Disk(disk.files[path := Record(a.Tokens())], disk.unwritable), Ok(()))
  }

  /** Replaces the three token fields with those of the state's file. The
      record is taken as it is: a file may hold a mixed subset of fields. */
  function Load(a: SpotifyAuth, disk: Disk): (r: Result<SpotifyAuth>)
    ensures a.filepath.None? ==> r == Err(NoFilepath)
    ensures a.filepath.Some? && a.filepath.value !in disk.files ==>
      r == Err(FileNotFound(a.filepath.value))
    ensures a.filepath.Some? && a.filepath.value in disk.files
            && disk.files[a.filepath.value].Unparsable? ==>
      r == Err(FileCorrupt(a.filepath.value))
    ensures r.Ok? ==> a.filepath.Some? && a.filepath.value in disk.files
                      && disk.files[a.filepath.value] == Record(r.value.Tokens())
    ensures r.Ok? ==> r.value == a.WithTokens(r.value.Tokens())
    ensures a.filepath.Some? && a.filepath.value in disk.files
            && disk.files[a.filepath.value].Record? ==>
      r == Ok(a.WithTokens(disk.files[a.filepath.value].tokens))
  {
    match a.filepath
    case None => Err(NoFilepath)
    case Some(path) =>
      if path !in disk.files then Err(FileNotFound(path))
      else match disk.files[path]
        case Unparsable => Err(FileCorrupt(path))
        case Record(tokens) => Ok(a.WithTokens(tokens))
  }

  /** Sets the file to sync to and immediately overwrites it with the current
      token fields. The path is set even when the write fails. */
  function WithFile(a: SpotifyAuth, disk: Disk, path: string): (s: Step<()>)
    ensures s.auth == a.(filepath := Some(path))
    ensures s.sent == []
    ensures s.result.Ok? <==> path !in disk.unwritable
    ensures s.result.Ok? ==> s.disk.files == disk.files[path := Record(a.Tokens())]
    ensures s.result.Err? ==> s.disk == disk
  {
    var a' := a.(filepath := Some(path));
    var w := Save(a', disk);
    Step(a', w.disk, [], w.result)
  }

  /** Stops syncing to a file; the file itself is left alone. */
  function RemoveFile(a: SpotifyAuth): (a': SpotifyAuth)
    ensures a'.filepath.None?
    ensures a'.Tokens() == a.Tokens()
    ensures a'.clientId == a.clientId && a'.clientSecret == a.clientSecret
  {
    a.(filepath := None)
  }

  /** A state for the given client, read from an existing file. */
  function FromFile(clientId: string, clientSecret: string, path: string, disk: Disk)
    : (r: Result<SpotifyAuth>)
    ensures r.Ok? <==> path in disk.files && disk.files[path].Record?
    ensures path !in disk.files ==> r == Err(FileNotFound(path))
    ensures path in disk.files && disk.files[path].Unparsable? ==> r == Err(FileCorrupt(path))
    ensures r.Ok? ==> r.value.Tokens() == disk.files[path].tokens
    ensures r.Ok? ==> r.value.filepath == Some(path)
                      && r.value.clientId == clientId && r.value.clientSecret == clientSecret
  {
    var a := New(clientId, clientSecret).(filepath := Some(path));
    Load(a, disk)
  }

  /** Clears the three token fields and, when a file is set, the file too. */
  function ResetAuth(a: SpotifyAuth, disk: Disk): (s: Step<()>)
    ensures s.auth.Tokens() == EmptyTokens
    ensures s.auth == a.WithTokens(EmptyTokens)
    ensures s.sent == []
    ensures s.result.Ok? && a.filepath.Some? ==>
      s.disk.files == disk.files[a.filepath.value := Record(EmptyTokens)]
    ensures a.filepath.None? ==> s.disk == disk && s.result.Ok?
    ensures a.filepath.Some? ==> (s.result.Ok? <==> a.filepath.value !in disk.unwritable)
    ensures s.result.Err? ==> s.disk == disk && a.filepath.Some?
                              && s.result.error == WriteFailed(a.filepath.value)
  {
    var a' := a.WithTokens(EmptyTokens);
    var w := Save(a', disk);
    Step(a', w.disk, [], w.result)
  }

  /** A successful save followed by a load through the same path restores
      exactly the three token fields, and nothing else of the loading state. */
  lemma SaveThenLoad(a: SpotifyAuth, b: SpotifyAuth, disk: Disk)
    requires a.filepath.Some? && b.filepath == a.filepath
    requires Save(a, disk).result.Ok?
    ensures Load(b, Save(a, disk).disk) == Ok(b.WithTokens(a.Tokens()))
  {
  }

  /** Loading and then saving again leaves the file as it was. */
  lemma LoadThenSave(a: SpotifyAuth, disk: Disk)
    requires Load(a, disk).Ok?
    requires a.filepath.value !in disk.unwritable
    ensures Save(Load(a, disk).value, disk) == Written(disk, Ok(()))
  {
    var path := a.filepath.value;
    var w := Save(Load(a, disk).value, disk);
    assert w.disk.files == disk.files by {
      assert disk.files[path := disk.files[path]] == disk.files;
    }
  }

  /** After a reset that reaches the file, any state loading that file has
      no tokens, whatever the state before the reset. */
  lemma ResetThenLoad(a: SpotifyAuth, b: SpotifyAuth, disk: Disk)
    requires a.filepath.Some? && b.filepath == a.filepath
    requires ResetAuth(a, disk).result.Ok?
    ensures Load(b, ResetAuth(a, disk).disk).Ok?
    ensures Load(b, ResetAuth(a, disk).disk).value.Tokens() == EmptyTokens
  {
    SaveThenLoad(a.WithTokens(EmptyTokens), b, disk);
  }

  /** `with_file` followed by `from_file` on the same path recovers the
      token fields that `with_file` wrote. */
  lemma WithFileThenFromFile(a: SpotifyAuth, disk: Disk, path: string)
    requires WithFile(a, disk, path).result.Ok?
    ensures FromFile(a.clientId, a.clientSecret, path, WithFile(a, disk, path).disk)
            == Ok(a.(filepath := Some(path)))
  {
    var s := WithFile(a, disk, path);
    assert s.disk.files[path] == Record(a.Tokens());
  }

  /** Once the path is removed, saving writes nothing and a reset clears
      only the in-memory fields: the file keeps its old record. */
  lemma RemoveFileStopsSync(a: SpotifyAuth, disk: Disk)
    ensures Save(RemoveFile(a), disk) == Written(disk, Ok(()))
    ensures ResetAuth(RemoveFile(a), disk).disk == disk
    ensures ResetAuth(RemoveFile(a), disk).auth.Tokens() == EmptyTokens
  {
  }
}

=== FILE: types.dfy ===
/** Data model of the credential lifecycle of the Spotify command-line client:
    the in-memory `SpotifyAuth` record, the persisted `TokenFile`, the disk it
    lives on, the token-endpoint exchange and the error taxonomy. */
module AuthTypes {

  /** Rust's `u64`. */
  const U64_MODULUS: int := 0x1_0000_0000_0000_0000
  type U64 = x: int | 0 <= x < U64_MODULUS

  /** Rust's `u16`, the type of a redirect port. */
  type Port = x: int | 0 <= x < 0x1_0000

  /** `a + b` on `u64` as a release build computes it (overflow wraps). */
  function WrappingAdd(a: U64, b: U64): (r: U64)
    ensures a + b < U64_MODULUS ==> r == a + b
    ensures a + b >= U64_MODULUS ==> r == a + b - U64_MODULUS && r < a && r < b
  {
    (a + b) % U64_MODULUS
  }

  /** `a - b` on `u64` as a release build computes it (underflow wraps). */
  function WrappingSub(a: U64, b: U64): (r: U64)
    ensures a >= b ==> r == a - b
    ensures a < b ==> r == a - b + U64_MODULUS && r > a
  {
    (a - b) % U64_MODULUS
  }

  datatype Option<+T> = None | Some(value: T)

  /** Every failure the credential lifecycle can report. */
  datatype AuthError =
    | NoFilepath                 // load without a file path
    | FileNotFound(path: string) // the file cannot be opened
    | FileCorrupt(path: string)  // the file does not decode as a token record
    | WriteFailed(path: string)  // the file cannot be created
    | MixedTokenFields           // some token fields are present, but not all
    | TokenMissingAfterRefresh   // no access token after a successful refresh
    | PortsUnavailable           // no candidate redirect port is free
    | RedirectNotCaptured        // neither the listener nor the manual paste gave a URL
    | MissingCode                // the redirect has no `code` parameter
    | MissingState               // the redirect has no `state` parameter
    | InvalidState               // the redirect's `state` is not the one generated
    | NoRefreshToken             // refresh requested without a stored refresh token
    | TransportFailed            // the token request could not be sent
    | ServiceError(body: string) // the token endpoint answered with a status other than 200
    | MalformedResponse          // a 200 answer whose body is not a token response
    | MissingRefreshToken        // a 200 answer to the code grant without a refresh token

  datatype Result<+T> = Ok(value: T) | Err(error: AuthError)

  /** The persisted record: exactly the three token fields. */
  datatype TokenFile = TokenFile(
    accessToken: Option<string>,
    validUntil: Option<U64>,
    refreshToken: Option<string>)
  {
    predicate AllPresent() {
      accessToken.Some? && validUntil.Some? && refreshToken.Some?
    }

    predicate AllAbsent() {
      accessToken.None? && validUntil.None? && refreshToken.None?
    }

    /** The invariant the lifecycle relies on: all three or none. */
    predicate Consistent() {
      AllPresent() || AllAbsent()
    }
  }

  const EmptyTokens: TokenFile := TokenFile(None, None, None)

  /** The in-memory credential state of one client. */
  datatype SpotifyAuth = SpotifyAuth(
    clientId: string,
    clientSecret: string,
    accessToken: Option<string>,
    validUntil: Option<U64>,
    refreshToken: Option<string>,
    filepath: Option<string>)
  {
    /** The record that `save` writes for this state. */
    function Tokens(): TokenFile {
      TokenFile(accessToken, validUntil, refreshToken)
    }

    /** This state with its token fields taken from `t`. */
    function WithTokens(t: TokenFile): (a: SpotifyAuth)
      ensures a.Tokens() == t
      ensures a.clientId == clientId && a.clientSecret == clientSecret
      ensures a.filepath == filepath
    {
      this.(accessToken := t.accessToken, validUntil := t.validUntil,
            refreshToken := t.refreshToken)
    }
  }

  /** What a file holds: a decodable token record, or anything else. */
  datatype Stored = Record(tokens: TokenFile) | Unparsable

  /** The file system as far as the credential store sees it: the files by
      path, and the paths at which a file cannot be created. */
  datatype Disk = Disk(files: map<string, Stored>, unwritable: set<string>)

  /** The grant a token request carries in its form body. */
  datatype Grant =
    | AuthorizationCodeGrant(code: string, redirectPort: Port)
    | RefreshTokenGrant(refreshToken: string)

  /** A POST to the token endpoint, with the client's Basic credentials. */
  datatype TokenRequest = TokenRequest(clientId: string, clientSecret: string, grant: Grant)

  /** The JSON body of a successful token response. */
  datatype AuthenticationResponse = AuthenticationResponse(
    accessToken: string,
    tokenType: string,
    scope: string,
    expiresIn: U64,
    refreshToken: Option<string>)

  /** The token endpoint's answer: none at all (transport failure), or a
      status, a body, and that body decoded as a token response when it is one. */
  datatype TokenReply =
    | NoReply
    | Reply(status: nat, body: string, decoded: Option<AuthenticationResponse>)

  const HTTP_OK: nat := 200

  /** The outcome of a file write: the disk afterwards and success or failure. */
  datatype Written = Written(disk: Disk, result: Result<()>)

  /** The outcome of an operation on the credential state: the state and the
      disk afterwards, the token requests it attempted (in order,
      including one that could not be sent), and its result. */
  datatype Step<+T> = Step(auth: SpotifyAuth, disk: Disk, sent: seq<TokenRequest>, result: Result<T>)
}
